=== FILE: README.md ===
# Product catalog API — a Dafny model

The repository is a small Express server for a cleaning-products catalog. It keeps its
"database" in memory: an array `produtos` of records `{id, nome, categoria, preco}`,
seeded with four products (ids 1–4), and a counter `proximoId` that starts at 5. Five
route handlers read and change that state:

- `GET /api/produtos` filters by category and by part of the name, both
  case-insensitively. It counts the matches and returns one page of them.
- `GET /api/produtos/:id` returns one record, or 404.
- `POST /api/produtos` checks that the fields are present, assigns the next id and
  appends the record.
- `PUT /api/produtos/:id` merges the supplied fields into the record with that id.
- `DELETE /api/produtos/:id` is meant to remove the record with that id.

The model is functional. A `Store` holds the records and the counter. Each handler is a
pure function from the store and the already-parsed request to a `Reply`: status code,
JSON body and the store afterwards. The modules follow that split:

- `Js` (js.dfy): the JavaScript built-ins the handlers use.
  - `undefined` is an `Option` field, and so is a `NaN` from `parseInt`.
  - String truthiness.
  - `toLowerCase`, restricted to ASCII letters.
  - `includes`.
  - `Array.prototype.slice`, including how it reads negative bounds.
  - `findIndex` and `filter`.
  - A subsequence relation that states "order is kept".
- `Catalog` (catalog.dfy): the records, the store, the seed, lookup by id, and the
  store invariant. The invariant says ids rise along the array (so they are unique)
  and all of them are below `proximoId`.
- `Handlers` (handlers.dfy): list, get, create, update and delete, written as the code
  evidently means them.
- `Defects` (defects.dfy): create, update and delete exactly as the source writes them.
  Each has a lemma showing where it departs from the corrected handler. See "Findings".
- `Properties` (properties.dfy): lemmas that connect several calls.
  - Paging and the one-pass filter reference.
  - Read after write and delete-then-404.
  - Idempotence of update.
  - The id invariant over any sequence of requests, for both the corrected handlers and
    the as-written ones.
  - The example queries on the seed.

The code does not always do what it evidently means. The intent is visible in the source
itself: the route comments name each operation ("Criar um novo produto", "Atualizar um
produto", "Deletar um produto"), create answers `res.status(201)`, and in update the
`categoria` and `preco` lines each fall back to their own old field. The code departs from
that intent in four places:

- Create reads the undeclared `proximeId`, so every complete POST throws and nothing is
  added (public/app.js:65).
- Update replaces a missing name with the record's old category (public/app.js:86).
- Delete looks the record up with `p.id --- parseInt(id)`. That expression decrements
  ids and selects the first record whose id differs from the one asked for
  (public/app.js:98).
- Delete then calls the non-mutating `slice`, so nothing is removed (public/app.js:102).

Each of these is a row under "Findings". The `Defects` module models the code exactly as
written, and its lemmas exhibit each departure. The `Handlers` module holds the corrected
handlers. `Handle`, `Run` and most lemmas in `Properties` are about the corrected handlers.
`HandleAsWritten`, `RunAsWritten` and the lemmas whose names say "AsWritten" are about the
code as written.

## Model

| member | source | states |
|---|---|---|
| Catalog.SeedValid | public/app.js:10-16 | The four seed products have ids that rise along the array and stay below the initial counter 5. |
| Catalog.IndexOfId | public/app.js:78 | `findIndex` on the id gives -1 exactly when no record has that id. Otherwise it gives the first record that does. A `NaN` id matches nothing. |
| Js.Filter | public/app.js:30 | Every element `filter` keeps passes the test and comes from the input. Every passing element of the input appears in the result. The result keeps input order: it is a subsequence of the input. How often duplicates are kept is stated by `Js.FilterCounts`. |
| Js.FilterCounts | public/app.js:30-34 | `filter` keeps each passing value exactly as many times as the input holds it, and never keeps a failing value. |
| Js.ToLower | public/app.js:30-34 | `toLowerCase` keeps the length and maps each character by itself. ASCII upper-case letters become lower-case, and no upper-case letter is left. |
| Js.IncludesSubstring | public/app.js:34 | `includes` accepts every contiguous piece of the string, the empty string included. |
| Js.IncludedIsSubstring | public/app.js:34 | Whatever `includes` accepts is a contiguous piece of the string, found at some position. |
| Js.Slice | public/app.js:39 | For bounds `0 <= start <= end`, `slice` is the run between the bounds, clamped to the length. A start at or past the end gives an empty result. So does a non-negative end at or before the start, and reversed negative bounds `end <= start < 0` (as in `slice(-1, -2)`). Two negative bounds `-len <= start <= end < 0` are read from the back: the result is the run from `len+start` to `len+end`. |
| Js.SliceIsContiguous | public/app.js:39 | For any bounds, even negative ones, `slice` returns one contiguous run of the array. When `start <= end`, its length is at most `end - start`. |
| Js.FindIndex | public/app.js:51 | `find`/`findIndex` returns the first index whose element passes the test. It returns -1 only when no element passes. |
| Handlers.Matching | public/app.js:27-35 | Every record left after the two filters is in the store and meets every filter the query switches on. Every store record that meets them is left. The store order is kept. Multiplicity is stated by `Properties.MatchingKeepsCounts`. |
| Handlers.Paginate | public/app.js:37-39 | The page is a subsequence of the filtered records, with at most `limit` records for a non-negative `limit`. For `page >= 1` and `limit >= 0` it is exactly the run of filtered records from `(page-1)*limit`, up to `limit` long and clamped to the end. |
| Handlers.List | public/app.js:25-47 | Status 200, and the store is unchanged. `page` defaults to 1 and `limit` to 10. `total` is at most the store size, and equals it when no filter is given. Every returned record is in the store and matches the category (case-insensitive) and the name substring. The page keeps store order and has at most `limit` records. |
| Handlers.Get | public/app.js:50-56 | For an unknown id: 404 `{message}`. Otherwise: 200 with the first record that has the id. The store is never changed. |
| Handlers.Create | public/app.js:59-72 | A missing or empty `nome` or `categoria`, or an undefined `preco`, gives 400 and leaves the store unchanged. A `preco` of 0 is accepted. Otherwise the reply is 201. Exactly one record is appended, with id equal to the old counter. The counter goes up by one and earlier records are unchanged. |
| Handlers.Update | public/app.js:75-93 | For an unknown id: 404, store unchanged. Otherwise only the first matching record changes, and it keeps its id. The store keeps its length. `nome` and `categoria` are replaced only when truthy, `preco` only when defined. Unsupplied fields keep their old values. |
| Handlers.Delete | public/app.js:96-104 | For an unknown id: 404 `{message}`, store unchanged. Otherwise 204 with an empty body. The first matching record is removed, the other records stay in order, and the counter is unchanged. |
| Defects.CreateAsWritten | public/app.js:59-72 | As written, an incomplete body gets 400. A complete one gets 500, because `proximeId` is undeclared. Either way the store is unchanged. |
| Defects.CreateAsWrittenRejectsValidBodies | public/app.js:64-65 | On every complete body, the as-written create answers 500 and adds nothing. The corrected create answers 201 and adds one record. |
| Defects.UpdateAsWritten | public/app.js:75-93 | As written, the update behaves like the corrected one except for `nome`. A missing or empty `nome` becomes the record's OLD CATEGORY. |
| Defects.UpdateAsWrittenRenamesToCategory | public/app.js:86 | On the seed, a PUT to id 1 with only a price renames "Detergente Ypê" to "Cozinha". The corrected update keeps the name. |
| Defects.FindIndexDecrementing | public/app.js:98 | `findIndex(p => p.id --- parseInt(id))` decrements the id of every record it visits. It stops at the first record whose id DIFFERS from the target, and returns -1 only when every id equals the target or the target is `NaN`. |
| Defects.DeleteAsWritten | public/app.js:96-104 | As written, delete never changes the length of the store or any field but the id. The reply is 404 exactly when no record's id differs from the target, and 204 otherwise. Each record the callback reaches loses one from its id: every record on a 404, and the records up to and including the selected one on a 204. The records after it keep their ids. |
| Defects.DeleteAsWrittenKeepsTarget | public/app.js:98-103 | On the seed, deleting id 2 answers 204 and sets record 1's id to 0. A GET of id 2 still finds "Desinfetante Veja". After the corrected delete, that GET answers 404. |
| Defects.DeleteAsWrittenAcceptsAnyUnknownId | public/app.js:96-104 | On any non-empty store, deleting an id that no record carries answers 204 as written, because the first record's id already differs. The corrected delete answers 404. |
| Defects.DeleteAsWrittenAcceptsUnknownId | public/app.js:98-100 | On the seed, deleting the unknown id 99 answers 204 as written. The corrected delete answers 404. |
| Properties.MatchingIsOneFilter | public/app.js:29-35 | Applying the category filter and then the name filter gives the same sequence as one `filter` with both conditions. |
| Properties.MatchingKeepsCounts | public/app.js:27-35 | The filtered sequence (before paging) keeps every selected record exactly as many times as the store holds it, and no record the query excludes. |
| Properties.ListTotalIgnoresPaging | public/app.js:37-42 | `total` depends only on the filters, not on `page` or `limit`. It equals the length of the one-pass filter. |
| Properties.ListPageIsSlice | public/app.js:37-39 | Take `page >= 1` and `limit >= 0`. Then the page is the filtered records from index `(page-1)*limit`, for up to `limit` records. It is empty when that offset is at least `total`. |
| Properties.ListWholeCatalog | public/app.js:26-42 | With no filter, page 1 and a limit at least the store size, the listing is the whole store in order. `total` is the store size. |
| Properties.ListNegativeLimitDropsLast | public/app.js:37-39 | `page=1&limit=-1` lists every filtered record except the last, because `slice` reads the end bound `-1` from the back. |
| Properties.CreateKeepsValid | public/app.js:64-71 | Create keeps the id invariant. A new id is larger than every id already in the store. |
| Properties.UpdateKeepsValid | public/app.js:84-91 | The corrected update keeps the id invariant. |
| Properties.UpdateAsWrittenKeepsValid | public/app.js:84-91 | The as-written update keeps the id invariant. |
| Properties.DeleteKeepsValid | public/app.js:98-102 | The corrected delete keeps the id invariant. |
| Properties.DeleteAsWrittenKeepsValid | public/app.js:98 | The as-written delete decrements a prefix of the ids. Ids still rise and stay below the counter. |
| Properties.GetAfterCreate | public/app.js:50-71 | A GET for the id just assigned answers 200 with the created record. |
| Properties.GetAfterUpdate | public/app.js:50-92 | A GET after a successful update answers 200 with the record that the update returned. |
| Properties.DeleteThenNotFound | public/app.js:50-104 | After a delete, a GET of the same id and a second DELETE of it both answer 404. |
| Properties.UpdateIdempotent | public/app.js:84-91 | Sending the same corrected PUT twice gives the same store as sending it once. |
| Properties.UpdateAsWrittenRepeatsExactlyWhen | public/app.js:86-87 | The as-written PUT gives the same store when repeated exactly when one of these holds: it names the product, it sends no category, or it sends the category the record already had. |
| Properties.HandleKeepsValid | public/app.js:25-104 | Every corrected handler keeps the id invariant and never lowers the counter. |
| Properties.RunKeepsValid | public/app.js:16-104 | Start from a valid store and run any sequence of requests, handled one at a time. Ids stay rising and unique, all are below the counter, and the counter never goes down. |
| Properties.RunSplit | public/app.js:25-104 | Handling a sequence of requests is handling a prefix of it, then the rest. |
| Properties.IdsNeverReused | public/app.js:64-65 | Run any requests, deletes included, then create. The new id differs from every id held by the start store, by every intermediate store after each request, and by the current store. |
| Properties.SeedCreateDeleteCreate | public/app.js:59-104 | From the seed, a create gets id 5. Deleting 5 brings the store back to four records. The next create gets id 6, not the freed 5. |
| Properties.HandleAsWrittenKeepsValid | public/app.js:25-104 | Every as-written handler keeps the invariant, the counter and the number of records. |
| Properties.RunAsWrittenFreezesCatalog | public/app.js:59-104 | Exactly as written, no sequence of requests changes the number of records or the counter, and ids stay rising. |
| Properties.SeedCategoriaBanheiro | public/app.js:10-35 | `GET /api/produtos?categoria=banheiro` on the seed returns exactly "Desinfetante Veja", with total 1, page 1 and limit 10. |
| Properties.SeedBanheiroMatches | public/app.js:30 | The case-insensitive category filter keeps only the "Banheiro" record of the seed. |
| Properties.SeedSecondPageOfTwo | public/app.js:10-42 | `limit=2&page=2` on the seed returns the third and fourth products, with total 4. |
| Properties.SeedNegativePage | public/app.js:37-39 | `page=-1&limit=2` on the seed gives the bounds -4 and -2. `slice` reads both from the back, so the first two products are listed. |
| Properties.SeedRunsKeepIdsUnique | public/app.js:10-16 | From the seed, any sequence of requests leaves ids unique. This holds for the corrected handlers and for the as-written ones. |

## Left out

- Express itself is not modelled. That covers routing, `express.json()`, static file
  serving, `res.sendFile` and `app.listen` (public/app.js:1-7, 18-20, 106-108). These
  are framework I/O.
- Parsing is not modelled; the handlers receive its result.
  - `parseInt` of the path id is an `Option<int>`, where `None` stands for `NaN`.
  - Query fields `page` and `limit` are integers, defaulting to 1 and 10.
  - Body fields are `Option`s.
  - Not covered: strings that coerce to other numbers (`?page=` is `0` in arithmetic
    but `NaN` for `parseInt`), array-valued query parameters, and non-string JSON
    values for `nome` or `categoria`.
- A `null` price is not modelled. The source accepts it, because `null !== undefined`.
  `preco` is a `real`, and no handler computes with it.
- `toLowerCase` is reduced to ASCII case folding. The seed categories are ASCII, and
  Unicode case mapping is not modelled.
- The body of a 500 reply is not modelled. Express's default error handler sends an
  HTML error page. The model keeps only the status and the exception text.
- The browser scripts public/js/main.js and public/js/produtos.js are not modelled. They
  are DOM construction, event wiring, `fetch`, dialogs and modals. Their one pure step,
  the first-seen de-duplication of categories, is not modelled either.
- Ids and the counter are JavaScript numbers, that is IEEE doubles. The model uses
  unbounded integers, which agree with them only below 2^53. At 2^53, `proximoId++` stops
  advancing and every later create would get the same id. The as-written delete can
  likewise lower ids toward -2^53.
- Properties.RunKeepsValid: holds for runs whose counter stays below 2^53, that is runs
  with fewer than 2^53 - 5 creates from the seed. Beyond that, JavaScript's rounding would
  break the invariant.
- Properties.IdsNeverReused: the same bound applies. Past 2^53 the counter no longer
  grows, and a create would reuse the previous id.
- Properties.SeedRunsKeepIdsUnique: the same bound applies. It holds for runs with fewer
  than 2^53 - 5 creates.
- Concurrency is not modelled. The server handles one request at a time, which is the
  sequential `Run` of the model.
- Js.Slice: mixed-sign bounds (a negative `start` with a non-negative `end`, or the
  reverse) and negative bounds below `-len` are not given a value by the contract.
  `Js.SliceIsContiguous` states only that the result is one run starting at the
  relatively read `start`.
- Handlers.Paginate: for `page < 1` or `limit < 0` the contract gives no exact page, only
  that it is a subsequence. `Properties.ListNegativeLimitDropsLast` and
  `Properties.SeedNegativePage` state two of those cases.
- Js.Filter: how often duplicates are kept is stated by the separate lemma
  `Js.FilterCounts`, not by `Filter`'s own contract. A multiset clause on every call makes
  proofs about concrete catalogs too costly.
- Handlers.Matching: how often duplicates are kept is stated by the separate lemma
  `Properties.MatchingKeepsCounts`, not by `Matching`'s own contract, for the same reason.
- Handlers.List: its own contract does not state which records the page holds. The
  exact page is stated by Properties.ListPageIsSlice for `page >= 1` and `limit >= 0`
  only. For other values the page follows `Js.Slice`'s reading of negative bounds.
  Properties.ListNegativeLimitDropsLast and Properties.SeedNegativePage state two of
  those cases.

## Findings

| source | as written | input that shows it | evidently intended | confidence | as-written member | corrected member |
|---|---|---|---|---|---|---|
| public/app.js:65 | `id: proximeId++` reads an undeclared variable, so every complete POST throws a ReferenceError (status 500) and adds nothing | `POST /api/produtos` with `{"nome":"Esponja","categoria":"Cozinha","preco":2.5}` | `id: proximoId++` | high; not executed | Defects.CreateAsWritten, Defects.CreateAsWrittenRejectsValidBodies | Handlers.Create, Properties.GetAfterCreate |
| public/app.js:86 | `nome: nome \|\| produtos[index].categoria`: a PUT without `nome` renames the product to its old category | `PUT /api/produtos/1` with `{"preco":4}` on the seed: the name becomes "Cozinha" | `nome \|\| produtos[index].nome` | high; not executed | Defects.UpdateAsWritten, Defects.UpdateAsWrittenRenamesToCategory | Handlers.Update, Properties.UpdateIdempotent |
| public/app.js:98 | `p.id --- parseInt(id)` parses as `(p.id--) - parseInt(id)`. It decrements every visited id and selects the first record whose id differs from the target | `DELETE /api/produtos/99` on the seed: 204, and product 1 now has id 0 | `p.id === parseInt(id)` | high; not executed | Defects.FindIndexDecrementing, Defects.DeleteAsWrittenAcceptsUnknownId | Catalog.IndexOfId, Handlers.Delete |
| public/app.js:102 | `produtos.slice(index, 1)` builds a new array and discards it, so nothing is removed | `DELETE /api/produtos/2`, then `GET /api/produtos/2` on the seed: the GET answers 200 | `produtos.splice(index, 1)` | high; not executed | Defects.DeleteAsWritten, Defects.DeleteAsWrittenKeepsTarget | Handlers.Delete, Properties.DeleteThenNotFound |

=== FILE: catalog.dfy ===
/** The in-memory "database" of the product API: an ordered array of product records
    and the counter that supplies the next id (public/app.js, lines 10-16). */
module Catalog {
  import opened Js

  /** One product record `{id, nome, categoria, preco}`. The price is carried through
      unchanged; no handler computes with it. */
  datatype Product = Product(id: int, nome: string, categoria: string, preco: real)

  /** The array `produtos` together with `proximoId`. */
  datatype Store = Store(produtos: seq<Product>, proximoId: int)

  /** The four example products and the counter the server starts with. */
  function Seed(): Store {
    Store([ Product(1, "Detergente Ypê", "Cozinha", 3.0),
            Product(2, "Desinfetante Veja", "Banheiro", 5.49),
            Product(3, "Sabão em pó Omo", "Lavanderia", 18.90),
            Product(4, "Limpa vidros", "Multiuso", 6.75) ],
          5)
  }

  /** `p.id === parseInt(id)`: a `NaN` parse result matches no record. */
  predicate HasId(p: Product, id: Option<int>) {
    id.Some? && p.id == id.value
  }

  /** Some record of the array carries the id `id`. */
  predicate Known(ps: seq<Product>, id: Option<int>) {
    exists i :: 0 <= i < |ps| && HasId(ps[i], id)
  }

  /** `i` is where `findIndex`/`find` on the id stops: the first record carrying `id`. */
  predicate FirstWithId(ps: seq<Product>, id: Option<int>, i: int) {
    0 <= i < |ps| && HasId(ps[i], id) && forall j :: 0 <= j < i ==> !HasId(ps[j], id)
  }

  /** `produtos.findIndex(p => p.id === parseInt(id))`. */
  function IndexOfId(ps: seq<Product>, id: Option<int>): (r: int)
    ensures r == -1 <==> !Known(ps, id)
    ensures r != -1 ==> FirstWithId(ps, id, r)
  {
    FindIndex(ps, p => HasId(p, id))
  }

  /** There is only one first record with a given id. */
  lemma FirstWithIdIsUnique(ps: seq<Product>, id: Option<int>, k: int)
    requires FirstWithId(ps, id, k)
    ensures forall i :: FirstWithId(ps, id, i) ==> i == k
  {
  }

  predicate IdsUnique(ps: seq<Product>) {
    forall i, j :: 0 <= i < j < |ps| ==> ps[i].id != ps[j].id
  }

  /** Ids grow along the array: true of the seed, and kept because records are only
      appended with a fresh, larger id. */
  predicate IdsAscending(ps: seq<Product>) {
    forall i, j :: 0 <= i < j < |ps| ==> ps[i].id < ps[j].id
  }

  /** Every id in the array was handed out before the counter reached its current value. */
  predicate IdsBelow(ps: seq<Product>, bound: int) {
    forall i :: 0 <= i < |ps| ==> ps[i].id < bound
  }

  /** The store invariant: ids ascending (hence unique) and all below `proximoId`. */
  predicate Valid(s: Store) {
    IdsAscending(s.produtos) && IdsBelow(s.produtos, s.proximoId)
  }

  lemma AscendingIdsAreUnique(ps: seq<Product>)
    requires IdsAscending(ps)
    ensures IdsUnique(ps)
  {
  }

  /** With unique ids, the record that carries an id is the only one that does. */
  lemma UniqueIdLocatesOne(ps: seq<Product>, id: Option<int>, i: int)
    requires IdsUnique(ps) && 0 <= i < |ps| && HasId(ps[i], id)
    ensures FirstWithId(ps, id, i)
    ensures forall j :: 0 <= j < |ps| && j != i ==> !HasId(ps[j], id)
  {
  }

  /** The seed satisfies the store invariant. */
  lemma SeedValid()
    ensures Valid(Seed())
    ensures |Seed().produtos| == 4
  {
  }
}

=== FILE: defects.dfy ===
/** Where the handlers' code does not do what it evidently means. Each defect is modelled
    as written, next to the corrected behaviour:
    - POST reads the undeclared `proximeId` (public/app.js:65) and so always throws;
      `Handlers.Create` is the corrected handler.
    - PUT falls back to the old category when `nome` is missing (public/app.js:86);
      `Handlers.Update` is the corrected handler.
    - DELETE looks records up with `p.id --- parseInt(id)` (public/app.js:98) and then calls
      the non-mutating `slice` (public/app.js:102); `Handlers.Delete` is the corrected one. */
module Defects {
  import opened Js
  import opened Catalog
  import opened Handlers

  // ---------------------------------------------------------------------------
  // POST: `proximeId++`
  // ---------------------------------------------------------------------------

  const ProximeIdUndefined: string := "ReferenceError: proximeId is not defined"

  /** POST /api/produtos as written: the presence check runs, but building the new record
      reads the undeclared `proximeId`, which throws before anything is pushed. */
  function CreateAsWritten(s: Store, b: ProductFields): (r: Reply)
    ensures r.store == s
    ensures !Complete(b) ==> r.status == 400 && r.body == Message(FieldsRequired)
    ensures Complete(b) ==> r.status == 500 && r.body == ServerError(ProximeIdUndefined)
  {
    if !Complete(b) then Reply(400, Message(FieldsRequired), s)
    else Reply(500, ServerError(ProximeIdUndefined), s)
  }

  /** Every complete POST is answered 500 where the intended handler answers 201. */
  lemma CreateAsWrittenRejectsValidBodies(s: Store, b: ProductFields)
    requires Complete(b)
    ensures CreateAsWritten(s, b).status == 500 && Create(s, b).status == 201
    ensures |CreateAsWritten(s, b).store.produtos| < |Create(s, b).store.produtos|
  {
  }

  // ---------------------------------------------------------------------------
  // PUT: `nome || produtos[index].categoria`
  // ---------------------------------------------------------------------------

  /** The record built on lines 84-89 as written: a missing or empty `nome` falls back to
      the OLD CATEGORY, not the old name. */
  function MergedAsWritten(prev: Product, b: ProductFields): Product {
    Product(prev.id,
            if Truthy(b.nome) then b.nome.value else prev.categoria,
            if Truthy(b.categoria) then b.categoria.value else prev.categoria,
            if b.preco.Some? then b.preco.value else prev.preco)
  }

  /** PUT /api/produtos/:id as written. */
  function UpdateAsWritten(s: Store, id: Option<int>, b: ProductFields): (r: Reply)
    ensures r.store.proximoId == s.proximoId && |r.store.produtos| == |s.produtos|
    ensures !Known(s.produtos, id) ==> r == Reply(404, Message(NotFound), s)
    ensures forall i :: FirstWithId(s.produtos, id, i) ==>
              var prev, p := s.produtos[i], r.store.produtos[i];
              && r.status == 200
              && r.body == Record(p)
              && (forall j :: 0 <= j < |s.produtos| && j != i ==> r.store.produtos[j] == s.produtos[j])
              && p.id == prev.id
              && p.nome == (if Truthy(b.nome) then b.nome.value else prev.categoria)
              && p.categoria == (if Truthy(b.categoria) then b.categoria.value else prev.categoria)
              && p.preco == (if b.preco.Some? then b.preco.value else prev.preco)
  {
    var index := IndexOfId(s.produtos, id);
    if index == -1 then Reply(404, Message(NotFound), s)
    else
      FirstWithIdIsUnique(s.produtos, id, index);
      var atualizado := MergedAsWritten(s.produtos[index], b).(id := id.value);
      Reply(200, Record(atualizado), s.(produtos := s.produtos[index := atualizado]))
  }

  /** On the seed, a PUT that sends only a price renames "Detergente Ypê" to its category
      "Cozinha"; the corrected handler keeps the name. */
  lemma UpdateAsWrittenRenamesToCategory()
    ensures var b := ProductFields(None, None, Some(4.0));
            && UpdateAsWritten(Seed(), Some(1), b).store.produtos[0].nome == "Cozinha"
            && Update(Seed(), Some(1), b).store.produtos[0].nome == "Detergente Ypê"
  {
    var b := ProductFields(None, None, Some(4.0));
    assert FirstWithId(Seed().produtos, Some(1), 0);
  }

  // ---------------------------------------------------------------------------
  // DELETE: `p.id --- parseInt(id)` and `slice(index, 1)`
  // ---------------------------------------------------------------------------

  /** The callback `p => p.id --- parseInt(id)` parses as `(p.id--) - parseInt(id)`: it is
      truthy when the id, read before the decrement, differs from the target. A `NaN`
      target makes the difference `NaN`, which is falsy. */
  predicate Differs(id: int, target: Option<int>) {
    target.Some? && id - target.value != 0
  }

  /** No record before index `j` differs from the target, so the callback reaches `j`. */
  predicate NoneDiffersBefore(ps: seq<Product>, target: Option<int>, j: int)
    requires j <= |ps|
  {
    forall k :: 0 <= k < j ==> !Differs(ps[k].id, target)
  }

  function Decremented(p: Product): Product {
    p.(id := p.id - 1)
  }

  /** `produtos.findIndex(p => p.id --- parseInt(id))` with its side effect: it visits the
      records in order up to the first whose id differed from the target (or all of them),
      and the callback decrements the id of every record it visits. Returns the index (or
      -1) and the array afterwards. */
  function FindIndexDecrementing(ps: seq<Product>, target: Option<int>): (r: (int, seq<Product>))
    ensures -1 <= r.0 < |ps| && |r.1| == |ps|
    ensures r.0 == -1 <==> forall j :: 0 <= j < |ps| ==> !Differs(ps[j].id, target)
    ensures 0 <= r.0 ==> Differs(ps[r.0].id, target) && forall j :: 0 <= j < r.0 ==> !Differs(ps[j].id, target)
    ensures forall j :: 0 <= j < |ps| ==>
              r.1[j] == if r.0 == -1 || j <= r.0 then Decremented(ps[j]) else ps[j]
  {
    var index := FindIndex(ps, (p: Product) => Differs(p.id, target));
    var visited := if index == -1 then |ps| else index + 1;
    (index, seq(|ps|, j requires 0 <= j < |ps| => if j < visited then Decremented(ps[j]) else ps[j]))
  }

  /** DELETE /api/produtos/:id as written: the lookup above, then `produtos.slice(index, 1)`,
      whose result is discarded, so no record is ever removed. */
  function DeleteAsWritten(s: Store, id: Option<int>): (r: Reply)
    ensures r.store.proximoId == s.proximoId && |r.store.produtos| == |s.produtos|
    ensures r.status == 404 || r.status == 204
    ensures r.status == 404 <==> forall j :: 0 <= j < |s.produtos| ==> !Differs(s.produtos[j].id, id)
    ensures r.status == 404 ==> r.body == Message(NotFoundOnDelete)
    ensures r.status == 204 ==> r.body == NoContent
    ensures forall j :: 0 <= j < |s.produtos| ==>
              var before, after := s.produtos[j], r.store.produtos[j];
              && after == before.(id := after.id)
              && before.id - 1 <= after.id <= before.id
    ensures forall j :: 0 <= j < |s.produtos| ==>
              r.store.produtos[j].id
              == s.produtos[j].id - (if NoneDiffersBefore(s.produtos, id, j) then 1 else 0)
  {
    var (index, ps) := FindIndexDecrementing(s.produtos, id);
    if index == -1 then Reply(404, Message(NotFoundOnDelete), s.(produtos := ps))
    else Reply(204, NoContent, s.(produtos := ps))
  }

  /** On the seed, `DELETE /api/produtos/2` answers 204, turns the id of the first record
      (1) into 0, and leaves record 2 where it was, so a following GET still finds it;
      the corrected handler removes it and the GET answers 404. */
  lemma DeleteAsWrittenKeepsTarget()
    ensures var r := DeleteAsWritten(Seed(), Some(2));
            && r.status == 204
            && r.store.produtos[0].id == 0
            && r.store.produtos[1] == Seed().produtos[1]
            && Get(r.store, Some(2)).status == 200
            && Get(r.store, Some(2)).body == Record(Seed().produtos[1])
    ensures Get(Delete(Seed(), Some(2)).store, Some(2)).status == 404
  {
    var ps := Seed().produtos;
    assert Differs(ps[0].id, Some(2));
    var (index, after) := FindIndexDecrementing(ps, Some(2));
    assert index == 0;
    assert after[0] == Decremented(ps[0]) && after[1] == ps[1];
    assert FirstWithId(after, Some(2), 1);
    SeedDeleteRemovesTwo();
  }

  /** The corrected handler, on the same request, removes record 2. */
  lemma SeedDeleteRemovesTwo()
    ensures Get(Delete(Seed(), Some(2)).store, Some(2)).status == 404
  {
    assert FirstWithId(Seed().produtos, Some(2), 1);
    var t := Delete(Seed(), Some(2)).store;
    assert t.produtos == [Seed().produtos[0], Seed().produtos[2], Seed().produtos[3]];
    assert !Known(t.produtos, Some(2));
  }

  /** On the seed, the unknown id 99 gets 204 from the as-written handler, where the
      corrected handler answers 404. */
  lemma DeleteAsWrittenAcceptsUnknownId()
    ensures DeleteAsWritten(Seed(), Some(99)).status == 204
    ensures Delete(Seed(), Some(99)).status == 404
  {
    assert Differs(Seed().produtos[0].id, Some(99));
    assert !Known(Seed().produtos, Some(99));
  }

  /** On any non-empty store, an id no record carries gets 204 from the as-written handler:
      the first record already differs from it. The corrected handler answers 404. */
  lemma DeleteAsWrittenAcceptsAnyUnknownId(s: Store, v: int)
    requires |s.produtos| > 0 && !Known(s.produtos, Some(v))
    ensures DeleteAsWritten(s, Some(v)).status == 204
    ensures Delete(s, Some(v)).status == 404
  {
    assert Differs(s.produtos[0].id, Some(v)) by {
      assert !HasId(s.produtos[0], Some(v));
    }
  }
}

=== FILE: handlers.dfy ===
/** The five route handlers of the product API (public/app.js, lines 25-104), each a pure
    function from the store and the parsed request to the reply status, the JSON body and
    the store afterwards. Parsing (`parseInt`, query strings, JSON bodies) happens before:
    ids and paging numbers arrive as `Option<int>`, body fields as `Option`s. */
module Handlers {
  import opened Js
  import opened Catalog

  /** The JSON a handler sends. */
  datatype Body =
    | Message(message: string)
    | Record(produto: Product)
    | Listing(total: nat, page: int, limit: int, data: seq<Product>)
    | NoContent
    | ServerError(error: string)  // an uncaught exception, answered by Express's default error handler

  /** Status, body and the store after the request. */
  datatype Reply = Reply(status: int, body: Body, store: Store)

  /** `req.query` of the listing route. */
  datatype ListQuery = ListQuery(categoria: Option<string>, nome: Option<string>,
                                 page: Option<int>, limit: Option<int>)

  /** `req.body` of the create and update routes. */
  datatype ProductFields = ProductFields(nome: Option<string>, categoria: Option<string>,
                                         preco: Option<real>)

  const NotFound: string := "Produto não encontrado"
  const NotFoundOnDelete: string := "produto não encontrado"
  const FieldsRequired: string := "Nome, categoria e preço são obrigatórios"

  // ---------------------------------------------------------------------------
  // GET /api/produtos
  // ---------------------------------------------------------------------------

  /** Default values of the destructuring `page = 1, limit = 10`. */
  function PageOf(q: ListQuery): int {
    if q.page.Some? then q.page.value else 1
  }

  function LimitOf(q: ListQuery): int {
    if q.limit.Some? then q.limit.value else 10
  }

  /** The category filter of line 30. */
  predicate InCategory(p: Product, categoria: string) {
    SameIgnoringCase(p.categoria, categoria)
  }

  /** The name filter of line 34. */
  predicate NameHas(p: Product, nome: string) {
    Includes(ToLower(p.nome), ToLower(nome))
  }

  /** Whether a record passes the filters the query switches on. */
  predicate Selected(p: Product, q: ListQuery) {
    (Truthy(q.categoria) ==> InCategory(p, q.categoria.value))
    && (Truthy(q.nome) ==> NameHas(p, q.nome.value))
  }

  /** The callbacks handed to `filter` on lines 30, 34, and the two combined. */
  function CategoryTest(categoria: string): Product -> bool {
    p => InCategory(p, categoria)
  }

  function NameTest(nome: string): Product -> bool {
    p => NameHas(p, nome)
  }

  function SelectedTest(q: ListQuery): Product -> bool {
    p => Selected(p, q)
  }

  /** `resultado` after both filters: the category filter (when `categoria` is truthy),
      then the name filter (when `nome` is truthy). */
  function Matching(ps: seq<Product>, q: ListQuery): (r: seq<Product>)
    ensures forall i :: 0 <= i < |r| ==> r[i] in ps && Selected(r[i], q)
    ensures forall i :: 0 <= i < |ps| && Selected(ps[i], q) ==> ps[i] in r
    ensures IsSubsequence(r, ps)
  {
    var byCategoria := if Truthy(q.categoria) then Filter(ps, CategoryTest(q.categoria.value)) else ps;
    SubsequenceReflexive(ps);
    var byNome := if Truthy(q.nome) then Filter(byCategoria, NameTest(q.nome.value)) else byCategoria;
    SubsequenceReflexive(byCategoria);
    SubsequenceTransitive(byNome, byCategoria, ps);
    byNome
  }

  /** `startIndex = (page - 1) * limit`; the page ends at `page * limit`, `limit` further on. */
  function PageStart(page: int, limit: int): (start: int)
    ensures page >= 1 && limit >= 0 ==> 0 <= start
    ensures start + limit == page * limit
  {
    (page - 1) * limit
  }

  /** The page cut on lines 37-39: `resultado.slice(startIndex, page * limit)`. */
  function Paginate(resultado: seq<Product>, page: int, limit: int): (data: seq<Product>)
    ensures IsSubsequence(data, resultado)
    ensures 0 <= limit ==> |data| <= limit
    ensures page >= 1 && 0 <= limit ==>
              data == resultado[Min(PageStart(page, limit), |resultado|)..Min(PageStart(page, limit) + limit, |resultado|)]
  {
    var start, end := PageStart(page, limit), page * limit;
    var data := Slice(resultado, start, end);
    SliceIsContiguous(resultado, start, end);
    ContiguousIsSubsequence(resultado, RelativeIndex(start, |resultado|), |data|);
    data
  }

  /** GET /api/produtos: filter, count, then cut the page. */
  function List(s: Store, q: ListQuery): (r: Reply)
    ensures r.status == 200 && r.store == s && r.body.Listing?
    ensures r.body.page == PageOf(q) && r.body.limit == LimitOf(q)
    ensures r.body.total <= |s.produtos|
    ensures !Truthy(q.categoria) && !Truthy(q.nome) ==> r.body.total == |s.produtos|
    ensures forall i :: 0 <= i < |r.body.data| ==> r.body.data[i] in s.produtos && Selected(r.body.data[i], q)
    ensures IsSubsequence(r.body.data, s.produtos)
    ensures 0 <= LimitOf(q) ==> |r.body.data| <= LimitOf(q)
  {
    var resultado := Matching(s.produtos, q);
    var data := Paginate(resultado, PageOf(q), LimitOf(q));
    SubsequenceTransitive(data, resultado, s.produtos);
    assert forall i :: 0 <= i < |data| ==> data[i] in resultado by {
      SubsequenceMembers(data, resultado);
    }
    assert !Truthy(q.categoria) && !Truthy(q.nome) ==> resultado == s.produtos;
    Reply(200, Listing(|resultado|, PageOf(q), LimitOf(q), data), s)
  }

  // ---------------------------------------------------------------------------
  // GET /api/produtos/:id
  // ---------------------------------------------------------------------------

  /** GET /api/produtos/:id: the first record with the id, or 404. */
  function Get(s: Store, id: Option<int>): (r: Reply)
    ensures r.store == s
    ensures !Known(s.produtos, id) ==> r.status == 404 && r.body == Message(NotFound)
    ensures Known(s.produtos, id) ==>
              r.status == 200 && r.body.Record?
              && exists i :: FirstWithId(s.produtos, id, i) && r.body.produto == s.produtos[i]
  {
    var i := IndexOfId(s.produtos, id);
    if i == -1 then Reply(404, Message(NotFound), s)
    else Reply(200, Record(s.produtos[i]), s)
  }

  // ---------------------------------------------------------------------------
  // POST /api/produtos
  // ---------------------------------------------------------------------------

  /** The presence check of line 61: `nome` and `categoria` truthy, `preco` not undefined. */
  predicate Complete(b: ProductFields) {
    Truthy(b.nome) && Truthy(b.categoria) && b.preco.Some?
  }

  /** POST /api/produtos with the counter the code evidently means (`proximoId`; the
      source spells it `proximeId`, see the as-written model). */
  function Create(s: Store, b: ProductFields): (r: Reply)
    ensures !Complete(b) ==> r == Reply(400, Message(FieldsRequired), s)
    ensures Complete(b) ==>
              && r.status == 201
              && r.store.proximoId == s.proximoId + 1
              && |r.store.produtos| == |s.produtos| + 1
              && r.store.produtos[..|s.produtos|] == s.produtos
              && r.store.produtos[|s.produtos|] == Product(s.proximoId, b.nome.value, b.categoria.value, b.preco.value)
              && r.body == Record(r.store.produtos[|s.produtos|])
  {
    if !Complete(b) then Reply(400, Message(FieldsRequired), s)
    else
      var novo := Product(s.proximoId, b.nome.value, b.categoria.value, b.preco.value);
      Reply(201, Record(novo), Store(s.produtos + [novo], s.proximoId + 1))
  }

  // ---------------------------------------------------------------------------
  // PUT /api/produtos/:id
  // ---------------------------------------------------------------------------

  /** The record lines 84-89 evidently mean to build: each field the body supplies
      (`nome` and `categoria` when truthy, `preco` when defined) replaces the old one. The
      source falls back to the old category for a missing name; see the as-written model. */
  function Merged(prev: Product, b: ProductFields): Product {
    Product(prev.id,
            if Truthy(b.nome) then b.nome.value else prev.nome,
            if Truthy(b.categoria) then b.categoria.value else prev.categoria,
            if b.preco.Some? then b.preco.value else prev.preco)
  }

  /** PUT /api/produtos/:id with the name fallback corrected. */
  function Update(s: Store, id: Option<int>, b: ProductFields): (r: Reply)
    ensures r.store.proximoId == s.proximoId && |r.store.produtos| == |s.produtos|
    ensures !Known(s.produtos, id) ==> r == Reply(404, Message(NotFound), s)
    ensures forall i :: FirstWithId(s.produtos, id, i) ==>
              var prev, p := s.produtos[i], r.store.produtos[i];
              && r.status == 200
              && r.body == Record(p)
              && (forall j :: 0 <= j < |s.produtos| && j != i ==> r.store.produtos[j] == s.produtos[j])
              && p.id == prev.id
              && p.categoria == (if Truthy(b.categoria) then b.categoria.value else prev.categoria)
              && p.preco == (if b.preco.Some? then b.preco.value else prev.preco)
              && p.nome == (if Truthy(b.nome) then b.nome.value else prev.nome)
  {
    var index := IndexOfId(s.produtos, id);
    if index == -1 then Reply(404, Message(NotFound), s)
    else
      FirstWithIdIsUnique(s.produtos, id, index);
      var atualizado := Merged(s.produtos[index], b).(id := id.value);
      Reply(200, Record(atualizado), s.(produtos := s.produtos[index := atualizado]))
  }

  // ---------------------------------------------------------------------------
  // DELETE /api/produtos/:id
  // ---------------------------------------------------------------------------

  /** DELETE /api/produtos/:id as the code evidently means it: find the record with `===`
      and remove it with `splice(index, 1)`. The source's own lookup and removal are
      modelled in the as-written module. */
  function Delete(s: Store, id: Option<int>): (r: Reply)
    ensures r.store.proximoId == s.proximoId
    ensures !Known(s.produtos, id) ==> r == Reply(404, Message(NotFoundOnDelete), s)
    ensures forall i :: FirstWithId(s.produtos, id, i) ==>
              r == Reply(204, NoContent, s.(produtos := s.produtos[..i] + s.produtos[i + 1..]))
  {
    var index := IndexOfId(s.produtos, id);
    if index == -1 then Reply(404, Message(NotFoundOnDelete), s)
    else
      FirstWithIdIsUnique(s.produtos, id, index);
      Reply(204, NoContent, s.(produtos := s.produtos[..index] + s.produtos[index + 1..]))
  }
}

=== FILE: js.dfy ===
/** The few JavaScript built-ins the catalog handlers rely on, stated over Dafny values:
    `undefined` for an absent request field, truthiness of a string, an ASCII reading of
    `String.prototype.toLowerCase` and `includes`, and the array methods `slice`,
    `findIndex` and `filter`. */
module Js {

  /** A request field that is either absent (`undefined`) or carries a value.
      For a parsed number, `None` also stands for the `NaN` that `parseInt` returns. */
  datatype Option<+T> = None | Some(value: T)

  /** JavaScript truthiness of an optional string: `undefined` and `""` are falsy. */
  predicate Truthy(o: Option<string>) {
    o.Some? && o.value != ""
  }

  function Min(a: int, b: int): int {
    if a <= b then a else b
  }

  // ---------------------------------------------------------------------------
  // Strings
  // ---------------------------------------------------------------------------

  predicate IsUpper(c: char) {
    'A' <= c <= 'Z'
  }

  /** Lower-cases one character; only the ASCII letters A-Z are mapped. */
  function LowerChar(c: char): char {
    if IsUpper(c) then (c as int + 32) as char else c
  }

  /** `s.toLowerCase()`, restricted to ASCII case mapping. */
  function ToLower(s: string): (r: string)
    ensures |r| == |s|
    ensures forall i :: 0 <= i < |s| ==> r[i] == LowerChar(s[i])
    ensures forall i :: 0 <= i < |r| ==> !IsUpper(r[i])
  {
    seq(|s|, i requires 0 <= i < |s| => LowerChar(s[i]))
  }

  /** Case-insensitive equality, as `a.toLowerCase() === b.toLowerCase()`. */
  predicate SameIgnoringCase(a: string, b: string) {
    ToLower(a) == ToLower(b)
  }

  /** `hay.includes(needle)`: `needle` occurs at some position of `hay`. */
  predicate Includes(hay: string, needle: string) {
    exists i :: 0 <= i <= |hay| && needle <= hay[i..]
  }

  /** Every contiguous piece of `hay` is included in it. */
  lemma IncludesSubstring(hay: string, i: int, j: int)
    requires 0 <= i <= j <= |hay|
    ensures Includes(hay, hay[i..j])
  {
    assert hay[i..j] <= hay[i..];
  }

  /** An included string is a contiguous piece of `hay`, found at position `i`. */
  lemma IncludedIsSubstring(hay: string, needle: string) returns (i: nat)
    requires Includes(hay, needle)
    ensures i + |needle| <= |hay| && needle == hay[i..i + |needle|]
  {
    i :| 0 <= i <= |hay| && needle <= hay[i..];
  }

  // ---------------------------------------------------------------------------
  // Arrays
  // ---------------------------------------------------------------------------

  /** How `Array.prototype.slice` reads one of its bounds: a negative index counts back
      from the end, and the result is clamped to `[0, len]`. */
  function RelativeIndex(i: int, len: nat): (r: nat)
    ensures r <= len
  {
    if i < 0 then (if len + i < 0 then 0 else len + i)
    else if i <= len then i
    else len
  }

  /** `s.slice(start, end)`. */
  function Slice<T>(s: seq<T>, start: int, end: int): (r: seq<T>)
    ensures |r| <= |s|
    ensures 0 <= start <= end ==> r == s[Min(start, |s|)..Min(end, |s|)]
    ensures 0 <= start && |s| <= start ==> r == []
    ensures 0 <= end <= start ==> r == []
    ensures end <= start < 0 ==> r == []
    ensures -|s| <= start <= end < 0 ==> r == s[|s| + start..|s| + end]
  {
    var from := RelativeIndex(start, |s|);
    var to := RelativeIndex(end, |s|);
    if from < to then s[from..to] else []
  }

  /** Whatever the bounds, a slice is one contiguous run of `s`, and when the bounds
      are ordered it is no longer than their distance. */
  lemma SliceIsContiguous<T>(s: seq<T>, start: int, end: int)
    ensures var k, r := RelativeIndex(start, |s|), Slice(s, start, end);
            k + |r| <= |s| && r == s[k..k + |r|]
    ensures start <= end ==> |Slice(s, start, end)| <= end - start
  {
  }

  /** `s.findIndex(f)`: the first index whose element satisfies `f`, or -1 if none does. */
  function FindIndex<T>(s: seq<T>, f: T -> bool): (r: int)
    ensures -1 <= r < |s|
    ensures r == -1 <==> forall j :: 0 <= j < |s| ==> !f(s[j])
    ensures 0 <= r ==> f(s[r]) && forall j :: 0 <= j < r ==> !f(s[j])
  {
    if s == [] then -1
    else if f(s[0]) then 0
    else
      var k := FindIndex(s[1..], f);
      if k == -1 then -1 else k + 1
  }

  /** `a` can be obtained from `b` by deleting elements: it keeps `b`'s order. */
  predicate IsSubsequence<T(==)>(a: seq<T>, b: seq<T>)
    decreases |b|
  {
    a == [] || (b != [] && ((a[0] == b[0] && IsSubsequence(a[1..], b[1..])) || IsSubsequence(a, b[1..])))
  }

  /** `s.filter(f)`: the elements of `s` that satisfy `f`, in their original order. */
  function Filter<T>(s: seq<T>, f: T -> bool): (r: seq<T>)
    ensures |r| <= |s|
    ensures forall i :: 0 <= i < |r| ==> r[i] in s && f(r[i])
    ensures forall i :: 0 <= i < |s| && f(s[i]) ==> s[i] in r
    ensures IsSubsequence(r, s)
  {
    if s == [] then []
    else if f(s[0]) then
      var rest := Filter(s[1..], f);
      assert ([s[0]] + rest)[1..] == rest;
      [s[0]] + rest
    else Filter(s[1..], f)
  }

  /** The filter keeps every element that passes exactly as often as `s` holds it, and
      no other element: duplicates are neither merged nor dropped. */
  lemma {:induction false} FilterCounts<T>(s: seq<T>, f: T -> bool)
    ensures forall x :: multiset(Filter(s, f))[x] == if f(x) then multiset(s)[x] else 0
    decreases |s|
  {
    if s != [] {
      FilterCounts(s[1..], f);
      assert s == [s[0]] + s[1..];
    }
  }

  /** Every sequence is a subsequence of itself. */
  lemma {:induction false} SubsequenceReflexive<T>(s: seq<T>)
    ensures IsSubsequence(s, s)
    decreases |s|
  {
    if s != [] {
      SubsequenceReflexive(s[1..]);
    }
  }

  /** Dropping elements twice still keeps the original order. */
  lemma {:induction false} SubsequenceTransitive<T>(a: seq<T>, b: seq<T>, c: seq<T>)
    requires IsSubsequence(a, b) && IsSubsequence(b, c)
    ensures IsSubsequence(a, c)
    decreases |c|
  {
    if a == [] {
    } else if c == [] {
      assert false;
    } else if b[0] == c[0] && IsSubsequence(b[1..], c[1..]) {
      if a[0] == b[0] && IsSubsequence(a[1..], b[1..]) {
        SubsequenceTransitive(a[1..], b[1..], c[1..]);
      } else {
        SubsequenceTransitive(a, b[1..], c[1..]);
      }
    } else {
      SubsequenceTransitive(a, b, c[1..]);
    }
  }

  /** A contiguous run of a sequence is a subsequence of it. */
  lemma {:induction false} ContiguousIsSubsequence<T>(s: seq<T>, k: nat, n: nat)
    requires k + n <= |s|
    ensures IsSubsequence(s[k..k + n], s)
    decreases k
  {
    if k == 0 {
      PrefixIsSubsequence(s, n);
    } else {
      ContiguousIsSubsequence(s[1..], k - 1, n);
      assert s[1..][k - 1..k - 1 + n] == s[k..k + n];
    }
  }

  lemma {:induction false} PrefixIsSubsequence<T>(s: seq<T>, n: nat)
    requires n <= |s|
    ensures IsSubsequence(s[..n], s)
    decreases n
  {
    if n > 0 {
      PrefixIsSubsequence(s[1..], n - 1);
      assert s[..n][1..] == s[1..][..n - 1];
    }
  }

  /** Filtering by `f` and then by `g` keeps the same elements as filtering once by a
      predicate `h` that accepts exactly what both accept. */
  lemma {:induction false} FilterFusion<T>(s: seq<T>, f: T -> bool, g: T -> bool, h: T -> bool)
    requires forall x :: h(x) == (f(x) && g(x))
    ensures Filter(Filter(s, f), g) == Filter(s, h)
    decreases |s|
  {
    if s != [] {
      FilterFusion(s[1..], f, g, h);
      if f(s[0]) {
        assert Filter(s, f)[1..] == Filter(s[1..], f);
      }
    }
  }

  /** A predicate that holds of every element lets the filter keep the whole sequence. */
  lemma {:induction false} FilterAll<T>(s: seq<T>, f: T -> bool)
    requires forall x :: x in s ==> f(x)
    ensures Filter(s, f) == s
    decreases |s|
  {
    if s != [] {
      assert s[0] in s;
      forall x | x in s[1..] ensures f(x) {
        assert x in s;
      }
      FilterAll(s[1..], f);
      assert [s[0]] + s[1..] == s;
    }
  }

  /** The filter depends only on which elements the predicate accepts. */
  lemma {:induction false} FilterExtensional<T>(s: seq<T>, f: T -> bool, g: T -> bool)
    requires forall x :: f(x) == g(x)
    ensures Filter(s, f) == Filter(s, g)
    decreases |s|
  {
    if s != [] {
      FilterExtensional(s[1..], f, g);
    }
  }

  /** The elements of a subsequence are elements of the sequence. */
  lemma {:induction false} SubsequenceMembers<T>(a: seq<T>, b: seq<T>)
    requires IsSubsequence(a, b)
    ensures forall i :: 0 <= i < |a| ==> a[i] in b
    decreases |b|
  {
    if a != [] {
      if a[0] == b[0] && IsSubsequence(a[1..], b[1..]) {
        SubsequenceMembers(a[1..], b[1..]);
        assert forall i :: 1 <= i < |a| ==> a[i] == a[1..][i - 1];
      } else {
        SubsequenceMembers(a, b[1..]);
      }
    }
  }
}

=== FILE: properties.dfy ===
/** Properties that relate several handler calls: the listing against an independent
    one-pass filter, paging, read-after-write, the id invariant along any sequence of
    requests, and the example scenarios on the seed catalog. */
module Properties {
  import opened Js
  import opened Catalog
  import opened Handlers
  import opened Defects

  // ---------------------------------------------------------------------------
  // Listing
  // ---------------------------------------------------------------------------

  /** The two filters applied in turn keep exactly the records a single pass with the
      conjoined condition keeps, in the same order. */
  lemma MatchingIsOneFilter(ps: seq<Product>, q: ListQuery)
    ensures Matching(ps, q) == Filter(ps, SelectedTest(q))
  {
    var sel := SelectedTest(q);
    if Truthy(q.categoria) && Truthy(q.nome) {
      var c, n := CategoryTest(q.categoria.value), NameTest(q.nome.value);
      assert Matching(ps, q) == Filter(Filter(ps, c), n);
      FilterFusion(ps, c, n, sel);
    } else if Truthy(q.categoria) {
      assert Matching(ps, q) == Filter(ps, CategoryTest(q.categoria.value));
      FilterExtensional(ps, CategoryTest(q.categoria.value), sel);
    } else if Truthy(q.nome) {
      assert Matching(ps, q) == Filter(ps, NameTest(q.nome.value));
      FilterExtensional(ps, NameTest(q.nome.value), sel);
    } else {
      assert Matching(ps, q) == ps;
      FilterAll(ps, sel);
    }
  }

  /** The filtered sequence (before paging) keeps every selected record as many times as the store holds it, and no
      other record: the two filters drop nothing but what the query excludes. */
  lemma MatchingKeepsCounts(ps: seq<Product>, q: ListQuery)
    ensures forall p :: multiset(Matching(ps, q))[p] == if Selected(p, q) then multiset(ps)[p] else 0
  {
    MatchingIsOneFilter(ps, q);
    FilterCounts(ps, SelectedTest(q));
  }

  /** `total` counts the filtered records and does not depend on `page` or `limit`. */
  lemma ListTotalIgnoresPaging(s: Store, q: ListQuery, q': ListQuery)
    requires q.categoria == q'.categoria && q.nome == q'.nome
    ensures List(s, q).body.total == List(s, q').body.total
    ensures List(s, q).body.total == |Filter(s.produtos, SelectedTest(q))|
  {
    MatchingIsOneFilter(s.produtos, q);
  }

  /** For `page >= 1` and `limit >= 0` the page is the run of filtered records starting at
      `(page - 1) * limit`, at most `limit` long, and empty once that offset reaches `total`. */
  lemma ListPageIsSlice(s: Store, q: ListQuery)
    requires PageOf(q) >= 1 && LimitOf(q) >= 0
    ensures var m, data := Matching(s.produtos, q), List(s, q).body.data;
            var start := PageStart(PageOf(q), LimitOf(q));
            && data == m[Min(start, |m|)..Min(start + LimitOf(q), |m|)]
            && (start >= |m| ==> data == [])
  {
    var m, page, limit := Matching(s.produtos, q), PageOf(q), LimitOf(q);
    assert List(s, q).body.data == Paginate(m, page, limit);
    SliceOfOrderedBounds(m, PageStart(page, limit), page * limit, limit);
  }

  lemma SliceOfOrderedBounds(m: seq<Product>, start: int, end: int, limit: int)
    requires 0 <= start && end == start + limit && 0 <= limit
    ensures Slice(m, start, end) == m[Min(start, |m|)..Min(start + limit, |m|)]
    ensures start >= |m| ==> Slice(m, start, end) == []
  {
  }

  /** With no filters, page 1 and a limit no smaller than the catalog, the listing is the
      whole catalog in store order. */
  lemma ListWholeCatalog(s: Store, q: ListQuery)
    requires !Truthy(q.categoria) && !Truthy(q.nome)
    requires PageOf(q) == 1 && LimitOf(q) >= |s.produtos|
    ensures List(s, q).body == Listing(|s.produtos|, 1, LimitOf(q), s.produtos)
  {
  }

  /** `slice` reads a negative end from the back: page 1 with `limit=-1` lists every
      filtered record but the last. */
  lemma ListNegativeLimitDropsLast(s: Store, q: ListQuery)
    requires PageOf(q) == 1 && LimitOf(q) == -1
    requires |Matching(s.produtos, q)| > 0
    ensures var m := Matching(s.produtos, q);
            List(s, q).body.data == m[..|m| - 1]
  {
  }

  // ---------------------------------------------------------------------------
  // Store invariant
  // ---------------------------------------------------------------------------

  /** A successful create hands out an id above every id in the store and keeps the
      invariant; a rejected one changes nothing. */
  lemma CreateKeepsValid(s: Store, b: ProductFields)
    requires Valid(s)
    ensures Valid(Create(s, b).store)
    ensures Complete(b) ==> forall i :: 0 <= i < |s.produtos| ==> s.produtos[i].id < Create(s, b).body.produto.id
  {
    if Complete(b) {
      var t := Create(s, b).store.produtos;
      forall i, j | 0 <= i < j < |t| ensures t[i].id < t[j].id {
        if j < |s.produtos| {
          assert t[i] == s.produtos[i] && t[j] == s.produtos[j];
        } else {
          assert t[i] == s.produtos[i];
        }
      }
    }
  }

  lemma UpdateAsWrittenKeepsValid(s: Store, id: Option<int>, b: ProductFields)
    requires Valid(s)
    ensures Valid(UpdateAsWritten(s, id, b).store)
  {
    var r := UpdateAsWritten(s, id, b);
    if Known(s.produtos, id) {
      var i := IndexOfId(s.produtos, id);
      assert FirstWithId(s.produtos, id, i);
      assert forall j :: 0 <= j < |s.produtos| ==> r.store.produtos[j].id == s.produtos[j].id;
    }
  }

  lemma UpdateKeepsValid(s: Store, id: Option<int>, b: ProductFields)
    requires Valid(s)
    ensures Valid(Update(s, id, b).store)
  {
    var r := Update(s, id, b);
    if Known(s.produtos, id) {
      var i := IndexOfId(s.produtos, id);
      assert FirstWithId(s.produtos, id, i);
      assert forall j :: 0 <= j < |s.produtos| ==> r.store.produtos[j].id == s.produtos[j].id;
    }
  }

  lemma DeleteKeepsValid(s: Store, id: Option<int>)
    requires Valid(s)
    ensures Valid(Delete(s, id).store)
  {
    if Known(s.produtos, id) {
      var i := IndexOfId(s.produtos, id);
      assert FirstWithId(s.produtos, id, i);
      var t := Delete(s, id).store.produtos;
      assert t == s.produtos[..i] + s.produtos[i + 1..];
      forall a, c | 0 <= a < c < |t| ensures t[a].id < t[c].id {
        var a' := if a < i then a else a + 1;
        var c' := if c < i then c else c + 1;
        assert t[a] == s.produtos[a'] && t[c] == s.produtos[c'];
      }
    }
  }

  /** The as-written delete lowers the ids of a prefix of the array by one, which keeps
      them ascending and below the counter. */
  lemma DeleteAsWrittenKeepsValid(s: Store, id: Option<int>)
    requires Valid(s)
    ensures Valid(DeleteAsWritten(s, id).store)
  {
    var (k, t) := FindIndexDecrementing(s.produtos, id);
    assert DeleteAsWritten(s, id).store.produtos == t;
    forall i, j | 0 <= i < j < |t| ensures t[i].id < t[j].id {
      assert s.produtos[i].id < s.produtos[j].id;
    }
  }

  // ---------------------------------------------------------------------------
  // Read after write
  // ---------------------------------------------------------------------------

  /** A GET for the id a create just assigned answers 200 with the created record. */
  lemma GetAfterCreate(s: Store, b: ProductFields)
    requires Valid(s) && Complete(b)
    ensures var r := Create(s, b);
            Get(r.store, Some(s.proximoId)) == Reply(200, r.body, r.store)
  {
    var r := Create(s, b);
    var n := |s.produtos|;
    assert FirstWithId(r.store.produtos, Some(s.proximoId), n) by {
      forall j | 0 <= j < n ensures !HasId(r.store.produtos[j], Some(s.proximoId)) {
        assert r.store.produtos[j] == s.produtos[j];
      }
    }
  }

  /** A GET after a successful update answers the record the update answered. */
  lemma GetAfterUpdate(s: Store, id: Option<int>, b: ProductFields)
    requires Known(s.produtos, id)
    ensures var r := Update(s, id, b);
            Get(r.store, id) == Reply(200, r.body, r.store)
  {
    var r := Update(s, id, b);
    var i := IndexOfId(s.produtos, id);
    assert FirstWithId(s.produtos, id, i);
    assert FirstWithId(r.store.produtos, id, i) by {
      forall j | 0 <= j < i ensures !HasId(r.store.produtos[j], id) {
        assert r.store.produtos[j] == s.produtos[j];
      }
    }
  }

  /** After a delete, the id is gone: a GET and a second DELETE both answer 404. */
  lemma DeleteThenNotFound(s: Store, id: Option<int>)
    requires Valid(s)
    ensures Get(Delete(s, id).store, id).status == 404
    ensures Delete(Delete(s, id).store, id).status == 404
  {
    var t := Delete(s, id).store;
    if Known(s.produtos, id) {
      var i := IndexOfId(s.produtos, id);
      assert FirstWithId(s.produtos, id, i);
      AscendingIdsAreUnique(s.produtos);
      UniqueIdLocatesOne(s.produtos, id, i);
      assert t.produtos == s.produtos[..i] + s.produtos[i + 1..];
      forall j | 0 <= j < |t.produtos| ensures !HasId(t.produtos[j], id) {
        var j' := if j < i then j else j + 1;
        assert t.produtos[j] == s.produtos[j'];
      }
    }
  }

  // ---------------------------------------------------------------------------
  // Repeating an update
  // ---------------------------------------------------------------------------

  /** The corrected update is idempotent: sending the same PUT twice leaves the store as
      sending it once. */
  lemma UpdateIdempotent(s: Store, id: Option<int>, b: ProductFields)
    ensures var t := Update(s, id, b).store;
            Update(t, id, b).store == t
  {
    var t := Update(s, id, b).store;
    if Known(s.produtos, id) {
      var i := IndexOfId(s.produtos, id);
      assert FirstWithId(s.produtos, id, i);
      assert FirstWithId(t.produtos, id, i) by {
        forall j | 0 <= j < i ensures !HasId(t.produtos[j], id) {
          assert t.produtos[j] == s.produtos[j];
        }
      }
      assert t.produtos[i := Update(t, id, b).store.produtos[i]] == t.produtos;
    }
  }

  /** The as-written update repeats exactly when the request names the product or leaves
      the category alone; a PUT that changes only the category renames the record again
      the second time (to the new category). */
  lemma UpdateAsWrittenRepeatsExactlyWhen(s: Store, id: Option<int>, b: ProductFields, i: int)
    requires FirstWithId(s.produtos, id, i)
    ensures var t := UpdateAsWritten(s, id, b).store;
            UpdateAsWritten(t, id, b).store == t
            <==> Truthy(b.nome) || !Truthy(b.categoria) || b.categoria.value == s.produtos[i].categoria
  {
    var t := UpdateAsWritten(s, id, b).store;
    assert FirstWithId(t.produtos, id, i) by {
      forall j | 0 <= j < i ensures !HasId(t.produtos[j], id) {
        assert t.produtos[j] == s.produtos[j];
      }
    }
    var u := UpdateAsWritten(t, id, b).store;
    assert u.produtos == t.produtos[i := u.produtos[i]];
  }

  // ---------------------------------------------------------------------------
  // Sequences of requests
  // ---------------------------------------------------------------------------

  datatype Request =
    | ListProducts(query: ListQuery)
    | GetProduct(id: Option<int>)
    | CreateProduct(fields: ProductFields)
    | UpdateProduct(id: Option<int>, fields: ProductFields)
    | DeleteProduct(id: Option<int>)

  /** Routes one request to the handlers as the code evidently means them. */
  function Handle(s: Store, req: Request): Reply {
    match req
    case ListProducts(q) => List(s, q)
    case GetProduct(id) => Get(s, id)
    case CreateProduct(b) => Create(s, b)
    case UpdateProduct(id, b) => Update(s, id, b)
    case DeleteProduct(id) => Delete(s, id)
  }

  /** Routes one request to the handlers exactly as the source writes them. */
  function HandleAsWritten(s: Store, req: Request): Reply {
    match req
    case ListProducts(q) => List(s, q)
    case GetProduct(id) => Get(s, id)
    case CreateProduct(b) => CreateAsWritten(s, b)
    case UpdateProduct(id, b) => UpdateAsWritten(s, id, b)
    case DeleteProduct(id) => DeleteAsWritten(s, id)
  }

  /** The store after the requests, handled one at a time. */
  function Run(s: Store, reqs: seq<Request>): Store
    decreases |reqs|
  {
    if reqs == [] then s else Run(Handle(s, reqs[0]).store, reqs[1..])
  }

  function RunAsWritten(s: Store, reqs: seq<Request>): Store
    decreases |reqs|
  {
    if reqs == [] then s else RunAsWritten(HandleAsWritten(s, reqs[0]).store, reqs[1..])
  }

  lemma HandleKeepsValid(s: Store, req: Request)
    requires Valid(s)
    ensures Valid(Handle(s, req).store)
    ensures s.proximoId <= Handle(s, req).store.proximoId
  {
    match req
    case ListProducts(q) =>
    case GetProduct(id) =>
    case CreateProduct(b) => CreateKeepsValid(s, b);
    case UpdateProduct(id, b) => UpdateKeepsValid(s, id, b);
    case DeleteProduct(id) => DeleteKeepsValid(s, id);
  }

  /** From a valid store, any sequence of requests keeps ids ascending, unique and below a
      counter that never goes down. */
  lemma {:induction false} RunKeepsValid(s: Store, reqs: seq<Request>)
    requires Valid(s)
    ensures Valid(Run(s, reqs))
    ensures s.proximoId <= Run(s, reqs).proximoId
    decreases |reqs|
  {
    if reqs != [] {
      HandleKeepsValid(s, reqs[0]);
      RunKeepsValid(Handle(s, reqs[0]).store, reqs[1..]);
    }
  }

  /** Running a sequence of requests is running a prefix of it, then the rest. */
  lemma {:induction false} RunSplit(s: Store, reqs: seq<Request>, k: int)
    requires 0 <= k <= |reqs|
    ensures Run(s, reqs) == Run(Run(s, reqs[..k]), reqs[k..])
    decreases k
  {
    if k == 0 {
      assert reqs[..0] == [] && reqs[0..] == reqs;
    } else {
      var s' := Handle(s, reqs[0]).store;
      RunSplit(s', reqs[1..], k - 1);
      assert reqs[..k][0] == reqs[0];
      assert reqs[..k][1..] == reqs[1..][..k - 1];
      assert reqs[1..][k - 1..] == reqs[k..];
    }
  }

  /** Ids are never reused: whatever happened in between, including deletes, a create
      assigns an id that no record held at any point of the run, from the start store
      through every intermediate store to the current one. */
  lemma IdsNeverReused(s: Store, reqs: seq<Request>, b: ProductFields)
    requires Valid(s) && Complete(b)
    ensures var t := Run(s, reqs);
            var novo := Create(t, b).body.produto;
            && (forall i :: 0 <= i < |s.produtos| ==> s.produtos[i].id != novo.id)
            && (forall i :: 0 <= i < |t.produtos| ==> t.produtos[i].id != novo.id)
            && forall k, i :: 0 <= k <= |reqs| && 0 <= i < |Run(s, reqs[..k]).produtos| ==>
                 Run(s, reqs[..k]).produtos[i].id != novo.id
  {
    RunKeepsValid(s, reqs);
    forall k | 0 <= k <= |reqs|
      ensures forall i :: 0 <= i < |Run(s, reqs[..k]).produtos| ==>
                Run(s, reqs[..k]).produtos[i].id < Run(s, reqs).proximoId
    {
      RunSplit(s, reqs, k);
      RunKeepsValid(s, reqs[..k]);
      RunKeepsValid(Run(s, reqs[..k]), reqs[k..]);
    }
  }

  /** From the seed: a create gets id 5, deleting 5 removes it, and the next create gets 6,
      not the freed 5. */
  lemma SeedCreateDeleteCreate(b: ProductFields)
    requires Complete(b)
    ensures var reqs := [CreateProduct(b), DeleteProduct(Some(5))];
            && Handle(Seed(), reqs[0]).body.produto.id == 5
            && |Run(Seed(), reqs).produtos| == 4
            && Create(Run(Seed(), reqs), b).body.produto.id == 6
  {
    var t := Create(Seed(), b).store;
    assert FirstWithId(t.produtos, Some(5), 4);
    var reqs := [CreateProduct(b), DeleteProduct(Some(5))];
    assert reqs[1..] == [DeleteProduct(Some(5))] && reqs[1..][1..] == [];
    assert Run(Delete(t, Some(5)).store, []) == Delete(t, Some(5)).store;
    assert Run(t, reqs[1..]) == Delete(t, Some(5)).store;
    assert Run(Seed(), reqs) == Run(t, reqs[1..]);
  }

  lemma HandleAsWrittenKeepsValid(s: Store, req: Request)
    requires Valid(s)
    ensures Valid(HandleAsWritten(s, req).store)
    ensures HandleAsWritten(s, req).store.proximoId == s.proximoId
    ensures |HandleAsWritten(s, req).store.produtos| == |s.produtos|
  {
    match req
    case ListProducts(q) =>
    case GetProduct(id) =>
    case CreateProduct(b) =>
    case UpdateProduct(id, b) => UpdateAsWrittenKeepsValid(s, id, b);
    case DeleteProduct(id) => DeleteAsWrittenKeepsValid(s, id);
  }

  /** Exactly as written, every sequence of requests keeps the invariant, never moves the
      counter and never changes the number of records: nothing is created or removed. */
  lemma {:induction false} RunAsWrittenFreezesCatalog(s: Store, reqs: seq<Request>)
    requires Valid(s)
    ensures Valid(RunAsWritten(s, reqs))
    ensures RunAsWritten(s, reqs).proximoId == s.proximoId
    ensures |RunAsWritten(s, reqs).produtos| == |s.produtos|
    decreases |reqs|
  {
    if reqs != [] {
      HandleAsWrittenKeepsValid(s, reqs[0]);
      RunAsWrittenFreezesCatalog(HandleAsWritten(s, reqs[0]).store, reqs[1..]);
    }
  }

  // ---------------------------------------------------------------------------
  // Seed scenarios
  // ---------------------------------------------------------------------------

  /** `GET /api/produtos?categoria=banheiro` on the seed lists exactly "Desinfetante Veja". */
  lemma SeedCategoriaBanheiro()
    ensures List(Seed(), ListQuery(Some("banheiro"), None, None, None)).body
            == Listing(1, 1, 10, [Seed().produtos[1]])
  {
    var q := ListQuery(Some("banheiro"), None, None, None);
    var m := Matching(Seed().produtos, q);
    SeedBanheiroMatching();
    assert Paginate(m, 1, 10) == m;
  }

  lemma SeedBanheiroMatching()
    ensures Matching(Seed().produtos, ListQuery(Some("banheiro"), None, None, None)) == [Seed().produtos[1]]
  {
    SeedBanheiroMatches();
  }

  lemma SeedBanheiroMatches()
    ensures Filter(Seed().produtos, CategoryTest("banheiro")) == [Seed().produtos[1]]
  {
    var ps, c := Seed().produtos, CategoryTest("banheiro");
    assert ToLower("banheiro") == "banheiro";
    assert ToLower("Banheiro") == "banheiro";
    assert ToLower("Cozinha")[0] == 'c';
    assert ToLower("Lavanderia")[0] == 'l';
    assert ToLower("Multiuso")[0] == 'm';
    assert !c(ps[0]) && c(ps[1]) && !c(ps[2]) && !c(ps[3]);
    assert Filter(ps[3..], c) == [];
    assert Filter(ps[2..], c) == [];
    assert Filter(ps[1..], c) == [ps[1]];
  }

  /** `GET /api/produtos?limit=2&page=2` on the seed: the last two records, total 4. */
  lemma SeedSecondPageOfTwo()
    ensures List(Seed(), ListQuery(None, None, Some(2), Some(2))).body
            == Listing(4, 2, 2, Seed().produtos[2..4])
  {
  }

  /** `GET /api/produtos?page=-1&limit=2` on the seed: the bounds -4 and -2 are read from
      the back, so the first two records are listed. */
  lemma SeedNegativePage()
    ensures List(Seed(), ListQuery(None, None, Some(-1), Some(2))).body.data == Seed().produtos[..2]
  {
  }

  /** Starting from the seed, the ids stay unique, for the corrected and the as-written
      handlers alike. */
  lemma SeedRunsKeepIdsUnique(reqs: seq<Request>)
    ensures IdsUnique(Run(Seed(), reqs).produtos)
    ensures IdsUnique(RunAsWritten(Seed(), reqs).produtos)
  {
    SeedValid();
    RunKeepsValid(Seed(), reqs);
    AscendingIdsAreUnique(Run(Seed(), reqs).produtos);
    RunAsWrittenFreezesCatalog(Seed(), reqs);
    AscendingIdsAreUnique(RunAsWritten(Seed(), reqs).produtos);
  }
}
